=== FILE: README.md ===
# SQLite persistence layer: statement builder and row mapper

A Dafny model of two parts of the SQLite persistence layer of a small users REST service:

- the **statement builder** (`src/services/sqlite/build.ts`). It covers the placeholder tokens
  `param`/`params`, the `metadata` summary of an attribute map, the `replace into` statements built by
  `buildToSave` and `buildToSaveBatch`, and number rendering with `toString`;
- the **row mapper** (`src/services/sqlite/sqlite.ts`). `mapArray` and `handleResults` rename the keys
  of result rows through a column-to-field map.

Both are pure transformations, so the model is functional throughout:

| module | file | contents |
|---|---|---|
| `Options` | `options.dfy` | `Option`, standing for `undefined`/`null` results |
| `Text` | `text.dfy` | decimal rendering of integers and its parser, ASCII lower-casing, `join` / `split` on one character |
| `Seqs` | `seqs.dfy` | order-preserving `Filter` |
| `Schema` | `schema.dfy` | `Value`, `Record`, `Attribute`, `Attributes`, `Statement`, `StringMap` |
| `Build` | `build.dfy` | everything in `build.ts` |
| `Sqlite` | `sqlite.dfy` | `mapArray`, `handleResults` and JavaScript property assignment on rows |
| `Scenarios` | `scenarios.dfy` | worked examples on the `users` entity |

Modelling choices:

- A record is a `map<string, Value>` with `Value = Str | Num(int) | NaN | Bool | Null`. A key missing
  from the map reads as `undefined`, and `Null` stands for both `null` and `undefined`, which the builder
  treats alike.
- The attribute map is a sequence of `(key, Attribute)` pairs in `Object.keys` order, so column order is
  explicit. The `Attribute`, `Statement` and `StringMap` types live in a `metadata` module that is not
  part of this model. They are defined from how `build.ts` and `sqlite.ts` use them.
- JavaScript truthiness is written out. An optional string (`field`, `true`, `false`, `m[key]`) counts
  only when it is present and non-empty (`Schema.Truthy`, `Sqlite.Rename`).
- The two builder loops are modelled step for step as folds (`SaveStep`, `BatchStep`). Each fold is
  proved equal to a position-by-position reference: `Cells`, `Columns`, `Texts` and `Args`.
- The query text is the exact text the code emits, `replace into T(c1,c2)values(v1,v2)`: lower-case
  with no spaces.
- A result row is an ordered sequence of `(key, value)` pairs. `Put` follows JavaScript assignment
  semantics: it overwrites in place, or appends a new key last.

Behaviour of the code that the model keeps as written:

- The query text is `replace into T(...)values(...)`: lower-case, with no spaces.
- `handleResults` only renames keys. Result values are never coerced, booleans included.
- `buildToSave` treats a start index of 0 like an absent one, as 1.
- For a record where no column qualifies, `buildToSaveBatch` still emits `replace into T()values()`
  with no arguments.

## Model

| member | source | states |
|---|---|---|
| Build.Param | src/services/sqlite/build.ts:3-5 | `'$' + i` is `$` followed by the position's decimal text: a `-` exactly for a negative position, and no leading zero |
| Build.ParamRoundTrip | src/services/sqlite/build.ts:3-5 | a placeholder is `$` followed by text that parses back to its position |
| Build.ParamInjective | src/services/sqlite/build.ts:3-5 | two placeholders are equal exactly when their positions are equal |
| Build.Params | src/services/sqlite/build.ts:6-15 | `params(length, from)` has `max(length, 0)` tokens; the j-th (1-based) is `param(from + j)`; an absent `from` counts as 0 |
| Build.ToString | src/services/sqlite/build.ts:165-172 | the rendered text is `null` exactly for NaN; an integer's text is canonical, with `-` exactly for negatives and no leading zero |
| Build.ToStringRoundTrip | src/services/sqlite/build.ts:165-172 | an integer's text parses back to that integer |
| Build.MetadataOf | src/services/sqlite/build.ts:24-62 | `keys` holds only key attributes of the map, `fields` has no more names than there are attributes, and `bools`, when present, is non-empty and holds only boolean attributes |
| Build.MetadataLists | src/services/sqlite/build.ts:32-60 | `keys` is the key attributes and `fields` the names of the non-ignored ones, both in definition order; `bools` is present exactly when some attribute has type `boolean`, and then lists those attributes in order |
| Build.MetadataVersion | src/services/sqlite/build.ts:44-46 | `version` is present exactly when some attribute is flagged `version`, and then names the last one |
| Build.MetadataRenames | src/services/sqlite/build.ts:47-57 | `map` is present exactly when some attribute's lower-cased column (`field`, else the key) differs from its key; its domain is those lower-cased columns, all of them lower-case, and each maps to the key of the last such attribute with that column |
| Build.Resolve | src/services/sqlite/build.ts:75-80 | a non-null record value is used as is; a missing or null record value is replaced by the attribute's default; so the value is null exactly when both are |
| Build.Qualifies | src/services/sqlite/build.ts:77-81 | an attribute gives a column exactly when it is neither ignored nor noinsert and the record's value or else the default is non-null |
| Build.CellsInOrder | src/services/sqlite/build.ts:74-83 | the columns are exactly the qualifying attributes, one column each, in definition order |
| Build.CellsSpec | src/services/sqlite/build.ts:74-83 | every qualifying attribute has its column and no other column appears; each column's value is non-null and comes from an attribute that is neither ignored nor noinsert; there are as many columns as qualifying attributes |
| Build.BoundArg | src/services/sqlite/build.ts:89-101 | only non-empty strings and booleans are bound; a bound argument is the string itself, or for a boolean the attribute's `true`/`false` marker, or `'1'`/`'0'` when that marker is unset; it is never the empty string |
| Build.StartIndex | src/services/sqlite/build.ts:64-66 | an absent or zero index becomes 1 and a given non-zero index is kept, so the first placeholder position is never 0 |
| Build.Placeholder | src/services/sqlite/build.ts:67-69 | a supplied placeholder function is used as given; without one, position `k` gets `param(k)` |
| Build.Render | src/services/sqlite/build.ts:109 | the query starts `replace into `, then the table name and `(`, and ends with `)`; its length is that of the fixed text plus the table name and the two joined lists |
| Build.RenderColumns | src/services/sqlite/build.ts:109 | the text between `T(` and `)values(` splits on `,` back into the columns when none contains a comma |
| Build.RenderValues | src/services/sqlite/build.ts:109 | the comma-joined value texts sit between `)values(` and the closing `)`, and split back into the values when none contains a comma |
| Build.BuildToSave | src/services/sqlite/build.ts:63-112 | the result is `null` exactly when no attribute qualifies |
| Build.SaveAllLayout | src/services/sqlite/build.ts:74-105 | the loop yields the reference columns, value texts and arguments, and advances the placeholder counter once per bound value |
| Build.BuildToSaveLayout | src/services/sqlite/build.ts:63-111 | a built statement is `replace into T(cols)values(texts)`: columns and value texts are aligned in definition order; `''` and numbers are inlined; other values get placeholders from the start index (absent or 0 means 1) with the default `param` unless one is given |
| Build.PlaceholdersConsecutive | src/services/sqlite/build.ts:89-90 | placeholder numbers of bound columns grow strictly along the columns and stay below the number of bound columns |
| Build.TokensConsecutive | src/services/sqlite/build.ts:89-90 | the placeholders in a statement are `bp(i)`, `bp(i+1)`, …, one per argument |
| Build.DefaultTokensAreParams | src/services/sqlite/build.ts:63-69 | with the default placeholder function the placeholders are `params(count, i - 1)` |
| Build.ArgsAlign | src/services/sqlite/build.ts:89-101 | the argument of each bound column sits at that column's placeholder number, so there are as many arguments as placeholders |
| Build.BatchStatement | src/services/sqlite/build.ts:124-161 | the statement built for one record equals `buildToSave(record, table, attrs, buildParam, 1)` when that is non-null, and is `replace into T()values()` with no arguments when it is null |
| Build.BuildToSaveBatch | src/services/sqlite/build.ts:113-163 | the result is `null` exactly when no attribute is a key; otherwise it holds one statement per record, in record order, each equal to `buildToSave(record, table, attrs, buildParam, 1)`, or to `replace into T()values()` with no arguments where that is null |
| Scenarios.FullRecord | src/services/sqlite/build.ts:109 | `{id:1, name:"a", email:"a@x.com"}` gives `replace into users(id,name,email)values(1,$1,$2)` with args `["a","a@x.com"]` |
| Scenarios.PartialRecord | src/services/sqlite/build.ts:77-81 | `{name:"a"}` gives `replace into users(name)values($1)` with args `["a"]` |
| Scenarios.EmptyRecord | src/services/sqlite/build.ts:159 | an empty record gives `null` from `buildToSave` and `replace into users()values()` in a batch |
| Scenarios.BatchWithoutKey | src/services/sqlite/build.ts:118-122 | without a key attribute the batch is `null` |
| Scenarios.UserIdRename | src/services/sqlite/build.ts:47-52 | attribute `userId` yields the rename map `{userid: userId}` |
| Scenarios.CollisionLaterWins | src/services/sqlite/sqlite.ts:138-144 | columns `userid` and `userId` both map to `userId`, and the later value wins |
| Scenarios.RowRenamedBack | src/services/sqlite/sqlite.ts:124-148 | a row `{userid, name}` read with map `{userid: userId}` becomes `{userId, name}` |
| Text.IntToStringRoundTrip | src/services/sqlite/build.ts:4 | rendering an integer and parsing it back gives that integer; the text is canonical, with `-` exactly for negatives and no leading zero (ensured by `IntToString`) |
| Text.Lower | src/services/sqlite/build.ts:48 | lower-casing keeps the length, turns each capital into its own lower-case letter, and leaves every other character unchanged |
| Text.LowerFixpoints | src/services/sqlite/build.ts:48-49 | lower-casing is idempotent and leaves exactly the strings without capitals unchanged |
| Text.JoinSplitRoundTrip | src/services/sqlite/build.ts:109 | the comma-joined column list splits back into the columns when no column contains a comma |
| Sqlite.Rename | src/services/sqlite/sqlite.ts:139-142 | a key is stored under `m[key]` when that is a non-empty string and under itself otherwise; the new key is empty only when the old one is |
| Sqlite.Put | src/services/sqlite/sqlite.ts:143 | assignment adds the key, keeps every other entry, keeps the length for an existing key and appends a new key last |
| Sqlite.PutGet | src/services/sqlite/sqlite.ts:143 | after assignment the key reads the new value and every other key reads as before |
| Sqlite.MapRow | src/services/sqlite/sqlite.ts:136-145 | the output row has distinct keys and never more keys than the input row |
| Sqlite.MapRowKeys | src/services/sqlite/sqlite.ts:137-144 | the output keys are exactly the renamed input keys: `m[key]` when a non-empty string, else the key |
| Sqlite.MapRowValues | src/services/sqlite/sqlite.ts:143 | every output entry carries the unchanged value of an input entry under that entry's renamed key |
| Sqlite.MapRowGet | src/services/sqlite/sqlite.ts:137-144 | an output key reads the value of the last input entry renamed to it, so on a collision the later key wins |
| Sqlite.MapRowNoCollision | src/services/sqlite/sqlite.ts:137-145 | without collisions the output row has the input's length and order, entry by entry renamed |
| Sqlite.MapRowRoundTrip | src/services/sqlite/sqlite.ts:139-143 | renaming with `m` and then with a map that inverts it on the row's keys restores the row |
| Sqlite.InjectiveRoundTrip | src/services/sqlite/sqlite.ts:139-143 | for injective `m` covering every row key, with row keys and their new names all non-empty, mapping with `m` and then with its inverse restores the row; the non-empty condition is needed because `!k0` treats an empty name as absent, so `m = {"": "x"}` turns `[("", 1)]` into `[("x", 1)]`, which no inverse can undo |
| Sqlite.MapArray | src/services/sqlite/sqlite.ts:124-148 | a missing or empty map returns the rows unchanged; otherwise there is one renamed row per input row, same count and order |
| Sqlite.MapArrayRoundTrip | src/services/sqlite/sqlite.ts:124-148 | mapping all rows with `m` and then with its inverse on their keys restores the rows |
| Sqlite.HandleResults | src/services/sqlite/sqlite.ts:117-123 | without a map the rows are returned as they are; with one the result is `mapArray(r, m)` |
| Sqlite.HandleResultsKeepsValues | src/services/sqlite/sqlite.ts:117-144 | no value is coerced: each output entry holds the value of an entry of the same input row |

## Left out

- The `execute` transaction sequence (sqlite.ts:37-79) is callback and promise plumbing over sqlite3 driver calls. Its statements run concurrently and `begin` is not awaited.
- `exec`, `query`, `queryOne` and `PoolManager` (sqlite.ts:11-36, 80-115) are thin wrappers over sqlite3 driver callbacks and are not modelled.
- `SqlUserService`, `UserController`, `route.ts`, `init.ts`, `index.ts` and the `UserService` interface are hand-written SQL, HTTP glue and bootstrap code, so they are not part of this model.
- Boolean coercion of result rows is not modelled because no code in these files implements it.
- `metadata` mutates each attribute with `attr.name = k`; the model names each attribute by its key in the sequence instead.
- The `match` attribute property plays no part in these operations and is omitted.
- Build.ToString: only integers and NaN are rendered. JavaScript's formatting of fractions, infinities, `-0` and exponent notation at 10^21 or more is not modelled.
- Build.ToString: numbers are unbounded integers, not doubles. Above 2^53 the model prints every exact digit, where JavaScript prints the shortest digits that round-trip (`2**60` prints as `1152921504606847000`). `Num` also admits integers no double can hold, such as 2^53 + 1.
- Text.Lower: `toLowerCase` is modelled on the ASCII letters A-Z only; Unicode case mapping is not modelled.
- Attributes and row keys are taken in the order given. JavaScript lists integer-like object keys first, in ascending order, and the model does not reorder them.
- Sqlite.MapRow: a key that names an inherited `Object.prototype` property (such as `toString`) is looked up as absent, not through the prototype chain.
- `mapArray` creates a fresh object per row. Values have no identity in this model, so "fresh" is not expressible.
- Attribute entries, records and rows are never `undefined` or `null` in the model. In the code an `undefined` attribute entry is skipped by `buildToSave` (`attr &&`, build.ts:77), but makes `metadata` throw at `attr.name = k` (build.ts:34), so `buildToSaveBatch` throws; a `null` record or row throws at build.ts:75 and sqlite.ts:137. The agreement of `buildToSaveBatch` with `buildToSave` relies on this exclusion.
- Record values that are objects or dates, and attribute markers that are not strings, are outside the `Value` union.

=== FILE: build.dfy ===
/**
 * The statement builder: placeholder tokens, metadata derived from an
 * attribute map, and the `replace into` statements built from records
 * (src/services/sqlite/build.ts).
 */
module Build {
  import opened Options
  import opened Text
  import opened Seqs
  import opened Schema

  // ---------------------------------------------------------------------
  // Placeholders and number rendering
  // ---------------------------------------------------------------------

  /** `param`: the default placeholder for position `i`. */
  function Param(i: int): (r: string)
    ensures |r| >= 2 && r[0] == '$' && (IsDigit(r[1]) || r[1] == '-')
    ensures r[1] == '-' <==> i < 0
    ensures i >= 0 && |r| > 2 ==> r[1] != '0'
  {
    "$" + IntToString(i)
  }

  /** A placeholder is a `$` followed by text that parses back to its position. */
  lemma ParamRoundTrip(i: int)
    ensures |Param(i)| >= 2 && Param(i)[0] == '$'
    ensures ParseInt(Param(i)[1..]) == Some(i)
  {
    assert Param(i)[1..] == IntToString(i);
    IntToStringRoundTrip(i);
  }

  /** Distinct positions get distinct placeholders. */
  lemma ParamInjective(i: int, j: int)
    ensures Param(i) == Param(j) <==> i == j
  {
    ParamRoundTrip(i);
    ParamRoundTrip(j);
  }

  /** The offset of `params`: an absent `from` counts as 0. */
  function ParamBase(from: Option<int>): int {
    from.GetOr(0)
  }

  /** `params(length, from)`: the placeholders for positions `from + 1` to `from + length`. */
  function Params(length: int, from: Option<int>): (ps: seq<string>)
    ensures |ps| == if length <= 0 then 0 else length
    ensures forall j :: 0 <= j < |ps| ==> ps[j] == Param(ParamBase(from) + j + 1)
    decreases if length <= 0 then 0 else length
  {
    if length <= 0 then []
    else
      var prefix := Params(length - 1, from);
      var ps := prefix + [Param(ParamBase(from) + length)];
      assert forall j :: 0 <= j < |prefix| ==> ps[j] == prefix[j];
      ps
  }

  predicate IsNumber(v: Value) {
    v.Num? || v.NaN?
  }

  /** `toString`: a number as SQL literal text; NaN becomes `null`. */
  function ToString(v: Value): (x: string)
    requires IsNumber(v)
    ensures x == "null" <==> v.NaN?
    ensures v.Num? ==> |x| > 0 && (x[0] == '-' <==> v.n < 0)
    ensures v.Num? && v.n >= 0 && |x| > 1 ==> x[0] != '0'
    ensures v.Num? && v.n < 0 ==> |x| > 1 && x[1] != '0'
  {
    if v.NaN? then "null"
    else
      var x := IntToString(v.n);
      assert x[0] != 'n';
      x
  }

  /** The text of an integer parses back to it. */
  lemma ToStringRoundTrip(n: int)
    ensures ParseInt(ToString(Num(n))) == Some(n)
  {
    IntToStringRoundTrip(n);
  }

  // ---------------------------------------------------------------------
  // Metadata
  // ---------------------------------------------------------------------

  /** The storage column of an attribute: `field` when truthy, else its key. */
  function ColumnName(na: NamedAttribute): string {
    if Truthy(na.1.field) then na.1.field.value else na.0
  }

  /** The lower-cased column name, under which the rename map is keyed. */
  function ColumnKey(na: NamedAttribute): string {
    Lower(ColumnName(na))
  }

  /** The lower-cased column differs from the key, so result rows need renaming. */
  predicate Renamed(na: NamedAttribute) {
    ColumnKey(na) != na.0
  }

  predicate IsKeyAttr(na: NamedAttribute) {
    na.1.key
  }

  predicate IsStored(na: NamedAttribute) {
    !na.1.ignored
  }

  predicate IsBoolAttr(na: NamedAttribute) {
    na.1.dataType == Some("boolean")
  }

  function Names(ns: seq<NamedAttribute>): (r: seq<string>)
    ensures |r| == |ns|
    ensures forall j :: 0 <= j < |ns| ==> r[j] == ns[j].0
  {
    seq(|ns|, j requires 0 <= j < |ns| => ns[j].0)
  }

  /** The derived summary of an attribute map. */
  datatype Metadata = Metadata(
    keys: seq<NamedAttribute>,
    bools: Option<seq<NamedAttribute>>,
    renames: Option<StringMap>,
    version: Option<string>,
    fields: seq<string>)

  /** The local variables of the loop in `metadata`. */
  datatype Scan = Scan(
    keys: seq<NamedAttribute>,
    bools: seq<NamedAttribute>,
    fields: seq<string>,
    version: Option<string>,
    renames: StringMap,
    isMap: bool)

  /** One iteration of the loop in `metadata`. */
  function ScanStep(s: Scan, na: NamedAttribute): Scan {
    Scan(
      if IsKeyAttr(na) then s.keys + [na] else s.keys,
      if IsBoolAttr(na) then s.bools + [na] else s.bools,
      if IsStored(na) then s.fields + [na.0] else s.fields,
      if na.1.version then Some(na.0) else s.version,
      if Renamed(na) then s.renames[ColumnKey(na) := na.0] else s.renames,
      s.isMap || Renamed(na))
  }

  function ScanAll(attrs: Attributes): Scan
    decreases |attrs|
  {
    if |attrs| == 0 then Scan([], [], [], None, map[], false)
    else ScanStep(ScanAll(attrs[..|attrs| - 1]), attrs[|attrs| - 1])
  }

  /** `metadata(attrs)`. */
  function MetadataOf(attrs: Attributes): (r: Metadata)
    ensures |r.keys| <= |attrs| && forall k :: 0 <= k < |r.keys| ==> r.keys[k] in attrs && r.keys[k].1.key
    ensures |r.fields| <= |attrs|
    ensures r.bools.Some? ==>
      |r.bools.value| > 0
      && forall k :: 0 <= k < |r.bools.value| ==> r.bools.value[k] in attrs && IsBoolAttr(r.bools.value[k])
  {
    ScanLists(attrs);
    var s := ScanAll(attrs);
    assert forall k :: 0 <= k < |s.keys| ==> s.keys[k] in s.keys;
    assert forall k :: 0 <= k < |s.bools| ==> s.bools[k] in s.bools;
    Metadata(
      s.keys,
      if |s.bools| > 0 then Some(s.bools) else None,
      if s.isMap then Some(s.renames) else None,
      s.version,
      s.fields)
  }

  lemma {:induction false} ScanLists(attrs: Attributes)
    ensures ScanAll(attrs).keys == Filter(attrs, IsKeyAttr)
    ensures ScanAll(attrs).bools == Filter(attrs, IsBoolAttr)
    ensures ScanAll(attrs).fields == Names(Filter(attrs, IsStored))
    decreases |attrs|
  {
    if |attrs| > 0 {
      var prefix := attrs[..|attrs| - 1];
      var na := attrs[|attrs| - 1];
      ScanLists(prefix);
      var stored := Filter(prefix, IsStored);
      if IsStored(na) {
        assert Names(stored + [na]) == Names(stored) + [na.0];
      }
    }
  }

  /** Non-empty filter results are exactly the ones with a witness. */
  lemma FilterNonEmpty(attrs: Attributes, p: NamedAttribute -> bool)
    ensures |Filter(attrs, p)| > 0 <==> exists j :: 0 <= j < |attrs| && p(attrs[j])
  {
    var r := Filter(attrs, p);
    if |r| > 0 {
      assert r[0] in r;
      var j :| 0 <= j < |attrs| && attrs[j] == r[0];
      assert p(attrs[j]);
    }
    if exists j :: 0 <= j < |attrs| && p(attrs[j]) {
      var j :| 0 <= j < |attrs| && p(attrs[j]);
      assert attrs[j] in r;
    }
  }

  /**
   * `keys` are the key attributes and `fields` the names of the
   * non-ignored ones, both in definition order; `bools` is present exactly
   * when some attribute is boolean, and then lists those attributes.
   */
  lemma {:induction false} MetadataLists(attrs: Attributes)
    ensures MetadataOf(attrs).keys == Filter(attrs, IsKeyAttr)
    ensures MetadataOf(attrs).fields == Names(Filter(attrs, IsStored))
    ensures MetadataOf(attrs).bools.Some? <==> exists j :: 0 <= j < |attrs| && IsBoolAttr(attrs[j])
    ensures MetadataOf(attrs).bools.Some? ==> MetadataOf(attrs).bools.value == Filter(attrs, IsBoolAttr)
  {
    ScanLists(attrs);
    FilterNonEmpty(attrs, IsBoolAttr);
  }

  /** `attrs[j]` is flagged `version` and no later attribute is. */
  predicate LastVersion(attrs: Attributes, j: int)
    requires 0 <= j < |attrs|
  {
    attrs[j].1.version && forall j' :: j < j' < |attrs| ==> !attrs[j'].1.version
  }

  lemma {:induction false} ScanVersion(attrs: Attributes)
    ensures ScanAll(attrs).version.Some? <==> exists j :: 0 <= j < |attrs| && attrs[j].1.version
    ensures ScanAll(attrs).version.Some? ==>
      exists j :: 0 <= j < |attrs| && LastVersion(attrs, j) && attrs[j].0 == ScanAll(attrs).version.value
    decreases |attrs|
  {
    if |attrs| > 0 {
      var prefix := attrs[..|attrs| - 1];
      var last := |attrs| - 1;
      ScanVersion(prefix);
      assert forall j :: 0 <= j < last ==> attrs[j] == prefix[j];
      if attrs[last].1.version {
        assert LastVersion(attrs, last);
      } else if ScanAll(prefix).version.Some? {
        var j :| 0 <= j < |prefix| && LastVersion(prefix, j) && prefix[j].0 == ScanAll(prefix).version.value;
        assert LastVersion(attrs, j);
      }
    }
  }

  /** `version` is the key of the last attribute flagged `version`, if any. */
  lemma MetadataVersion(attrs: Attributes)
    ensures MetadataOf(attrs).version.Some? <==> exists j :: 0 <= j < |attrs| && attrs[j].1.version
    ensures MetadataOf(attrs).version.Some? ==>
      exists j :: 0 <= j < |attrs| && LastVersion(attrs, j) && attrs[j].0 == MetadataOf(attrs).version.value
  {
    ScanVersion(attrs);
  }

  /** No attribute after position `j` lowers to the same column key as `attrs[j]` and is renamed. */
  predicate LastWithColumnKey(attrs: Attributes, j: int)
    requires 0 <= j < |attrs|
  {
    forall j' :: j < j' < |attrs| && Renamed(attrs[j']) ==> ColumnKey(attrs[j']) != ColumnKey(attrs[j])
  }

  lemma {:induction false} ScanIsMap(attrs: Attributes)
    ensures ScanAll(attrs).isMap <==> exists j :: 0 <= j < |attrs| && Renamed(attrs[j])
    decreases |attrs|
  {
    if |attrs| > 0 {
      var prefix := attrs[..|attrs| - 1];
      ScanIsMap(prefix);
      assert forall j :: 0 <= j < |prefix| ==> attrs[j] == prefix[j];
    }
  }

  lemma {:induction false} ScanRenameDomainSound(attrs: Attributes)
    ensures forall c :: c in ScanAll(attrs).renames ==>
      exists j :: 0 <= j < |attrs| && Renamed(attrs[j]) && ColumnKey(attrs[j]) == c
    decreases |attrs|
  {
    if |attrs| > 0 {
      var prefix := attrs[..|attrs| - 1];
      var na := attrs[|attrs| - 1];
      ScanRenameDomainSound(prefix);
      forall c | c in ScanAll(attrs).renames
        ensures exists j :: 0 <= j < |attrs| && Renamed(attrs[j]) && ColumnKey(attrs[j]) == c
      {
        if !(Renamed(na) && c == ColumnKey(na)) {
          assert c in ScanAll(prefix).renames;
          var j :| 0 <= j < |prefix| && Renamed(prefix[j]) && ColumnKey(prefix[j]) == c;
          assert attrs[j] == prefix[j];
        }
      }
    }
  }

  lemma {:induction false} ScanRenameDomainComplete(attrs: Attributes)
    ensures forall j :: 0 <= j < |attrs| && Renamed(attrs[j]) ==> ColumnKey(attrs[j]) in ScanAll(attrs).renames
    decreases |attrs|
  {
    if |attrs| > 0 {
      var prefix := attrs[..|attrs| - 1];
      ScanRenameDomainComplete(prefix);
      forall j | 0 <= j < |attrs| - 1 && Renamed(attrs[j])
        ensures ColumnKey(attrs[j]) in ScanAll(attrs).renames
      {
        assert attrs[j] == prefix[j];
      }
    }
  }

  lemma {:induction false} ScanRenameValues(attrs: Attributes)
    ensures forall j :: 0 <= j < |attrs| && Renamed(attrs[j]) && LastWithColumnKey(attrs, j) ==>
      ColumnKey(attrs[j]) in ScanAll(attrs).renames && ScanAll(attrs).renames[ColumnKey(attrs[j])] == attrs[j].0
    decreases |attrs|
  {
    if |attrs| > 0 {
      var prefix := attrs[..|attrs| - 1];
      var last := |attrs| - 1;
      ScanRenameValues(prefix);
      forall j | 0 <= j < |attrs| && Renamed(attrs[j]) && LastWithColumnKey(attrs, j)
        ensures ColumnKey(attrs[j]) in ScanAll(attrs).renames && ScanAll(attrs).renames[ColumnKey(attrs[j])] == attrs[j].0
      {
        if j < last {
          assert attrs[j] == prefix[j];
          assert LastWithColumnKey(prefix, j);
        }
      }
    }
  }

  /**
   * `map` is present exactly when some attribute's lower-cased column
   * differs from its key; it is then keyed by those lower-cased columns, and
   * maps each to the key of the last such attribute with that column.
   */
  lemma MetadataRenames(attrs: Attributes)
    ensures MetadataOf(attrs).renames.Some? <==> exists j :: 0 <= j < |attrs| && Renamed(attrs[j])
    ensures MetadataOf(attrs).renames.Some? ==>
      forall c :: c in MetadataOf(attrs).renames.value <==>
        exists j :: 0 <= j < |attrs| && Renamed(attrs[j]) && ColumnKey(attrs[j]) == c
    ensures MetadataOf(attrs).renames.Some? ==>
      forall j :: 0 <= j < |attrs| && Renamed(attrs[j]) && LastWithColumnKey(attrs, j) ==>
        MetadataOf(attrs).renames.value[ColumnKey(attrs[j])] == attrs[j].0
    ensures MetadataOf(attrs).renames.Some? ==>
      forall c :: c in MetadataOf(attrs).renames.value ==> Lower(c) == c
  {
    ScanIsMap(attrs);
    ScanRenameDomainSound(attrs);
    ScanRenameDomainComplete(attrs);
    ScanRenameValues(attrs);
    var m := ScanAll(attrs).renames;
    forall c | c in m ensures Lower(c) == c {
      var j :| 0 <= j < |attrs| && Renamed(attrs[j]) && ColumnKey(attrs[j]) == c;
      LowerFixpoints(ColumnName(attrs[j]));
    }
  }

  // ---------------------------------------------------------------------
  // Statements
  // ---------------------------------------------------------------------

  /** The record's value for the attribute, or its default when that is `null`/`undefined`. */
  function Resolve(rec: Record, na: NamedAttribute): (v: Value)
    ensures na.0 in rec && rec[na.0] != Null ==> v == rec[na.0]
    ensures na.0 !in rec || rec[na.0] == Null ==> v == na.1.defaultValue
    ensures v == Null <==> (na.0 !in rec || rec[na.0] == Null) && na.1.defaultValue == Null
  {
    if na.0 in rec && rec[na.0] != Null then rec[na.0] else na.1.defaultValue
  }

  /** The attribute contributes a column to the statement for `rec`. */
  predicate Qualifies(rec: Record, na: NamedAttribute): (b: bool)
    ensures b <==>
      !na.1.ignored && !na.1.noinsert
      && ((na.0 in rec && rec[na.0] != Null) || na.1.defaultValue != Null)
  {
    !na.1.ignored && !na.1.noinsert && Resolve(rec, na) != Null
  }

  /** Values written into the query text instead of being bound. */
  predicate IsInline(v: Value) {
    v == Str("") || IsNumber(v)
  }

  function Literal(v: Value): string
    requires IsInline(v)
  {
    if v == Str("") then "''" else ToString(v)
  }

  /**
   * The argument bound for a non-inline value: a string as is, a boolean
   * as the attribute's `true`/`false` marker, or `'1'`/`'0'` when that
   * marker is not set. No bound argument is ever the empty string.
   */
  function BoundArg(a: Attribute, v: Value): (r: string)
    requires (v.Str? && v.s != "") || v.Bool?
    ensures r != ""
    ensures v.Str? ==> r == v.s
    ensures v == Bool(true) ==> r == (if Truthy(a.trueMarker) then a.trueMarker.value else "1")
    ensures v == Bool(false) ==> r == (if Truthy(a.falseMarker) then a.falseMarker.value else "0")
  {
    match v
    case Bool(b) =>
      if b then (if Truthy(a.trueMarker) then a.trueMarker.value else "1")
      else (if Truthy(a.falseMarker) then a.falseMarker.value else "0")
    case Str(s) => s
  }

  /** The local variables of the statement-building loops. */
  datatype Parts = Parts(cols: seq<string>, values: seq<string>, args: seq<string>, next: int)

  /** Appends the column of `na` holding the resolved, non-null value `v`. */
  function Emit(p: Parts, na: NamedAttribute, v: Value, bp: int -> string): Parts
    requires v != Null
  {
    var cols := p.cols + [ColumnName(na)];
    if v == Str("") then Parts(cols, p.values + ["''"], p.args, p.next)
    else if IsNumber(v) then Parts(cols, p.values + [ToString(v)], p.args, p.next)
    else Parts(cols, p.values + [bp(p.next)], p.args + [BoundArg(na.1, v)], p.next + 1)
  }

  /** One iteration of the loop in `buildToSave`: skip first, then fall back to the default. */
  function SaveStep(p: Parts, rec: Record, na: NamedAttribute, bp: int -> string): Parts {
    if na.1.ignored || na.1.noinsert then p
    else
      var v := Resolve(rec, na);
      if v == Null then p else Emit(p, na, v, bp)
  }

  /** One iteration of the inner loop in `buildToSaveBatch`: default first, then the skip test. */
  function BatchStep(p: Parts, rec: Record, na: NamedAttribute, bp: int -> string): Parts {
    var v := Resolve(rec, na);
    if v != Null && !na.1.ignored && !na.1.noinsert then Emit(p, na, v, bp) else p
  }

  function SaveAll(rec: Record, attrs: Attributes, bp: int -> string, start: int): Parts
    decreases |attrs|
  {
    if |attrs| == 0 then Parts([], [], [], start)
    else SaveStep(SaveAll(rec, attrs[..|attrs| - 1], bp, start), rec, attrs[|attrs| - 1], bp)
  }

  function BatchAll(rec: Record, attrs: Attributes, bp: int -> string): Parts
    decreases |attrs|
  {
    if |attrs| == 0 then Parts([], [], [], 1)
    else BatchStep(BatchAll(rec, attrs[..|attrs| - 1], bp), rec, attrs[|attrs| - 1], bp)
  }

  /** The first placeholder position: an absent or zero `i` means 1. */
  function StartIndex(i: Option<int>): (r: int)
    ensures r != 0
    ensures i.Some? && i.value != 0 ==> r == i.value
    ensures i.None? || i.value == 0 ==> r == 1
  {
    if i.None? || i.value == 0 then 1 else i.value
  }

  /** The placeholder function: `param` unless the caller supplies one. */
  function Placeholder(bp: Option<int -> string>): (r: int -> string)
    ensures bp.Some? ==> r == bp.value
    ensures bp.None? ==> forall k :: r(k) == Param(k)
  {
    if bp.Some? then bp.value else Param
  }

  /** The exact query text: `replace into T(c1,c2)values(v1,v2)`. */
  function Render(table: string, cols: seq<string>, values: seq<string>): (r: string)
    ensures |r| == 23 + |table| + |Join(cols, ',')| + |Join(values, ',')|
    ensures r[..13] == "replace into " && r[13..13 + |table|] == table && r[13 + |table|] == '('
    ensures r[|r| - 1] == ')'
  {
    "replace into " + table + "(" + Join(cols, ',') + ")values(" + Join(values, ',') + ")"
  }

  /** The text between `T(` and `)values(` splits back into the columns when none contains a comma. */
  lemma RenderColumns(table: string, cols: seq<string>, values: seq<string>)
    requires |cols| > 0
    requires forall i :: 0 <= i < |cols| ==> ',' !in cols[i]
    ensures var r := Render(table, cols, values);
      var from := 14 + |table|;
      from + |Join(cols, ',')| <= |r|
      && Split(r[from..from + |Join(cols, ',')|], ',') == cols
      && r[from + |Join(cols, ',')|..from + |Join(cols, ',')| + 8] == ")values("
  {
    var r := Render(table, cols, values);
    var from := 14 + |table|;
    var j := Join(cols, ',');
    assert r[from..from + |j|] == j;
    JoinSplitRoundTrip(cols, ',');
  }

  /** The value texts sit between `)values(` and the closing `)`, and split back when none contains a comma. */
  lemma RenderValues(table: string, cols: seq<string>, values: seq<string>)
    ensures var r := Render(table, cols, values);
      var to := |r| - 1;
      var v := Join(values, ',');
      to - |v| - 8 >= 0
      && r[to - |v| - 8..to - |v|] == ")values("
      && r[to - |v|..to] == v
      && (|values| > 0 && (forall i :: 0 <= i < |values| ==> ',' !in values[i]) ==> Split(r[to - |v|..to], ',') == values)
  {
    var r := Render(table, cols, values);
    var v := Join(values, ',');
    assert r[|r| - 1 - |v|..|r| - 1] == v;
    if |values| > 0 && (forall i :: 0 <= i < |values| ==> ',' !in values[i]) {
      JoinSplitRoundTrip(values, ',');
    }
  }

  // Reference description of a built statement, position by position.

  /** A column that made it into the statement, with its resolved value. */
  datatype Cell = Cell(column: string, value: Value, attr: Attribute)

  function CellOf(rec: Record, na: NamedAttribute): Cell {
    Cell(ColumnName(na), Resolve(rec, na), na.1)
  }

  /** Every cell holds a value, so none of them is skipped. */
  predicate NonNull(cs: seq<Cell>) {
    forall k :: 0 <= k < |cs| ==> cs[k].value != Null
  }

  /** The columns of the statement for `rec`: one per qualifying attribute, in definition order. */
  function Cells(rec: Record, attrs: Attributes): (cs: seq<Cell>)
    ensures |cs| <= |attrs|
    ensures NonNull(cs)
    decreases |attrs|
  {
    if |attrs| == 0 then []
    else
      var cs := Cells(rec, attrs[..|attrs| - 1]);
      var na := attrs[|attrs| - 1];
      if Qualifies(rec, na) then cs + [CellOf(rec, na)] else cs
  }

  /** `Qualifies` for a fixed record, as a value that can be passed to `Filter`. */
  function QualifiesIn(rec: Record): NamedAttribute -> bool {
    na => Qualifies(rec, na)
  }

  /** The cells are exactly those of the qualifying attributes, one each, in definition order. */
  lemma {:induction false} CellsInOrder(rec: Record, attrs: Attributes)
    ensures var q := Filter(attrs, QualifiesIn(rec));
      Cells(rec, attrs) == seq(|q|, k requires 0 <= k < |q| => CellOf(rec, q[k]))
    decreases |attrs|
  {
    if |attrs| > 0 {
      var prefix := attrs[..|attrs| - 1];
      var na := attrs[|attrs| - 1];
      CellsInOrder(rec, prefix);
      var q := Filter(prefix, QualifiesIn(rec));
      if Qualifies(rec, na) {
        var q' := q + [na];
        assert Filter(attrs, QualifiesIn(rec)) == q';
        assert forall k :: 0 <= k < |q| ==> q'[k] == q[k];
      }
    }
  }

  /**
   * Every qualifying attribute has its cell, and every cell comes from a
   * qualifying attribute: none from an ignored or noinsert attribute, and
   * each carries a non-null value, resolved from the record or the default
   * as `Resolve` states.
   */
  lemma {:induction false} CellsSpec(rec: Record, attrs: Attributes)
    ensures forall j :: 0 <= j < |attrs| && Qualifies(rec, attrs[j]) ==> CellOf(rec, attrs[j]) in Cells(rec, attrs)
    ensures forall c :: c in Cells(rec, attrs) ==>
      exists j :: 0 <= j < |attrs| && Qualifies(rec, attrs[j]) && c == CellOf(rec, attrs[j])
    ensures forall c :: c in Cells(rec, attrs) ==> !c.attr.ignored && !c.attr.noinsert && c.value != Null
    ensures |Cells(rec, attrs)| == 0 <==> forall j :: 0 <= j < |attrs| ==> !Qualifies(rec, attrs[j])
    ensures |Cells(rec, attrs)| == |Filter(attrs, QualifiesIn(rec))|
    decreases |attrs|
  {
    CellsInOrder(rec, attrs);
    if |attrs| > 0 {
      var prefix := attrs[..|attrs| - 1];
      var na := attrs[|attrs| - 1];
      CellsSpec(rec, prefix);
      assert forall j :: 0 <= j < |prefix| ==> attrs[j] == prefix[j];
      var cs := Cells(rec, attrs);
      forall c | c in cs
        ensures exists j :: 0 <= j < |attrs| && Qualifies(rec, attrs[j]) && c == CellOf(rec, attrs[j])
      {
        if c !in Cells(rec, prefix) {
          assert Qualifies(rec, attrs[|attrs| - 1]);
        }
      }
      if |cs| == 0 {
        assert !Qualifies(rec, na);
      }
    }
  }

  /** How many cells are bound through a placeholder. */
  function Bound(cs: seq<Cell>): nat
    decreases |cs|
  {
    if |cs| == 0 then 0
    else Bound(cs[..|cs| - 1]) + if IsInline(cs[|cs| - 1].value) then 0 else 1
  }

  function Columns(cs: seq<Cell>): seq<string> {
    seq(|cs|, j requires 0 <= j < |cs| => cs[j].column)
  }

  /** The value text of cell `j`: its literal, or the placeholder numbered by the bound cells before it. */
  function ValueText(cs: seq<Cell>, j: int, bp: int -> string, start: int): string
    requires 0 <= j < |cs|
  {
    if IsInline(cs[j].value) then Literal(cs[j].value) else bp(start + Bound(cs[..j]))
  }

  function Texts(cs: seq<Cell>, bp: int -> string, start: int): seq<string> {
    seq(|cs|, j requires 0 <= j < |cs| => ValueText(cs, j, bp, start))
  }

  /** The bound arguments, in column order. */
  function Args(cs: seq<Cell>): (r: seq<string>)
    requires NonNull(cs)
    ensures |r| == Bound(cs)
    decreases |cs|
  {
    if |cs| == 0 then []
    else
      var c := cs[|cs| - 1];
      if IsInline(c.value) then Args(cs[..|cs| - 1])
      else Args(cs[..|cs| - 1]) + [BoundArg(c.attr, c.value)]
  }

  lemma TextsSnoc(cs: seq<Cell>, c: Cell, bp: int -> string, start: int)
    ensures Texts(cs + [c], bp, start) == Texts(cs, bp, start) + [ValueText(cs + [c], |cs|, bp, start)]
  {
    var cs' := cs + [c];
    forall j | 0 <= j < |cs|
      ensures ValueText(cs', j, bp, start) == ValueText(cs, j, bp, start)
    {
      assert cs'[..j] == cs[..j];
    }
  }

  /** Unfolds `SaveAll` over its last attribute in terms of the reference cells. */
  lemma SaveAllSnoc(rec: Record, attrs: Attributes, bp: int -> string, start: int)
    requires |attrs| > 0
    ensures var prefix := attrs[..|attrs| - 1];
      var na := attrs[|attrs| - 1];
      && (!Qualifies(rec, na) ==>
            SaveAll(rec, attrs, bp, start) == SaveAll(rec, prefix, bp, start)
            && Cells(rec, attrs) == Cells(rec, prefix))
      && (Qualifies(rec, na) ==>
            SaveAll(rec, attrs, bp, start) == Emit(SaveAll(rec, prefix, bp, start), na, Resolve(rec, na), bp)
            && Cells(rec, attrs) == Cells(rec, prefix) + [CellOf(rec, na)])
  {
  }

  lemma {:induction false} SaveAllColumns(rec: Record, attrs: Attributes, bp: int -> string, start: int)
    ensures SaveAll(rec, attrs, bp, start).cols == Columns(Cells(rec, attrs))
    ensures SaveAll(rec, attrs, bp, start).next == start + Bound(Cells(rec, attrs))
    decreases |attrs|
  {
    if |attrs| > 0 {
      var prefix := attrs[..|attrs| - 1];
      var na := attrs[|attrs| - 1];
      SaveAllColumns(rec, prefix, bp, start);
      SaveAllSnoc(rec, attrs, bp, start);
      if Qualifies(rec, na) {
        var cs := Cells(rec, prefix);
        var cs' := cs + [CellOf(rec, na)];
        assert Columns(cs') == Columns(cs) + [ColumnName(na)];
        assert cs'[..|cs'| - 1] == cs;
      }
    }
  }

  lemma {:induction false} SaveAllTexts(rec: Record, attrs: Attributes, bp: int -> string, start: int)
    ensures SaveAll(rec, attrs, bp, start).values == Texts(Cells(rec, attrs), bp, start)
    decreases |attrs|
  {
    if |attrs| > 0 {
      var prefix := attrs[..|attrs| - 1];
      var na := attrs[|attrs| - 1];
      SaveAllTexts(rec, prefix, bp, start);
      SaveAllColumns(rec, prefix, bp, start);
      SaveAllSnoc(rec, attrs, bp, start);
      if Qualifies(rec, na) {
        var cs := Cells(rec, prefix);
        var c := CellOf(rec, na);
        var cs' := cs + [c];
        var p := SaveAll(rec, prefix, bp, start);
        TextsSnoc(cs, c, bp, start);
        assert cs'[..|cs|] == cs;
        assert ValueText(cs', |cs|, bp, start) ==
          if IsInline(c.value) then Literal(c.value) else bp(p.next);
        assert Emit(p, na, c.value, bp).values == p.values + [ValueText(cs', |cs|, bp, start)];
      }
    }
  }

  lemma {:induction false} SaveAllArgs(rec: Record, attrs: Attributes, bp: int -> string, start: int)
    ensures SaveAll(rec, attrs, bp, start).args == Args(Cells(rec, attrs))
    decreases |attrs|
  {
    if |attrs| > 0 {
      var prefix := attrs[..|attrs| - 1];
      var na := attrs[|attrs| - 1];
      SaveAllArgs(rec, prefix, bp, start);
      SaveAllSnoc(rec, attrs, bp, start);
      if Qualifies(rec, na) {
        var cs := Cells(rec, prefix);
        var cs' := cs + [CellOf(rec, na)];
        assert cs'[..|cs'| - 1] == cs;
      }
    }
  }

  /** The loop of `buildToSave` builds exactly the reference columns, value texts and arguments. */
  lemma {:induction false} SaveAllLayout(rec: Record, attrs: Attributes, bp: int -> string, start: int)
    ensures SaveAll(rec, attrs, bp, start).cols == Columns(Cells(rec, attrs))
    ensures SaveAll(rec, attrs, bp, start).values == Texts(Cells(rec, attrs), bp, start)
    ensures SaveAll(rec, attrs, bp, start).args == Args(Cells(rec, attrs))
    ensures SaveAll(rec, attrs, bp, start).next == start + Bound(Cells(rec, attrs))
  {
    SaveAllColumns(rec, attrs, bp, start);
    SaveAllTexts(rec, attrs, bp, start);
    SaveAllArgs(rec, attrs, bp, start);
  }

  /** `buildToSave(obj, table, attrs, buildParam, i)`; `None` is the source's `null`. */
  function BuildToSave(rec: Record, table: string, attrs: Attributes,
                       bp: Option<int -> string>, i: Option<int>): (r: Option<Statement>)
    ensures r.None? <==> forall j :: 0 <= j < |attrs| ==> !Qualifies(rec, attrs[j])
  {
    var p := SaveAll(rec, attrs, Placeholder(bp), StartIndex(i));
    SaveAllColumns(rec, attrs, Placeholder(bp), StartIndex(i));
    CellsSpec(rec, attrs);
    if |p.cols| == 0 then None
    else Some(Statement(Render(table, p.cols, p.values), p.args))
  }

  /**
   * A built statement lists the qualifying columns in definition order,
   * each with its value text at the same position; arguments are the bound
   * values in that order, numbered from the start index.
   */
  lemma {:induction false} BuildToSaveLayout(rec: Record, table: string, attrs: Attributes,
                          bp: Option<int -> string>, i: Option<int>)
    ensures BuildToSave(rec, table, attrs, bp, i) ==
      var cs := Cells(rec, attrs);
      if |cs| == 0 then None
      else Some(Statement(Render(table, Columns(cs), Texts(cs, Placeholder(bp), StartIndex(i))), Args(cs)))
  {
    SaveAllLayout(rec, attrs, Placeholder(bp), StartIndex(i));
  }

  lemma {:induction false} BoundPrefix(cs: seq<Cell>, j: int)
    requires 0 <= j <= |cs|
    ensures Bound(cs[..j]) <= Bound(cs)
    ensures j < |cs| && !IsInline(cs[j].value) ==> Bound(cs[..j]) < Bound(cs)
    decreases |cs|
  {
    if j < |cs| {
      var prefix := cs[..|cs| - 1];
      if j < |prefix| {
        assert prefix[..j] == cs[..j];
        BoundPrefix(prefix, j);
      } else {
        assert cs[..j] == prefix;
      }
    } else {
      assert cs[..j] == cs;
    }
  }

  /**
   * Placeholder numbers of the bound cells grow strictly along the columns
   * and stay below the number of bound cells.
   */
  lemma {:induction false} PlaceholdersConsecutive(cs: seq<Cell>)
    ensures forall j :: 0 <= j < |cs| && !IsInline(cs[j].value) ==> Bound(cs[..j]) < Bound(cs)
    ensures forall j1, j2 :: 0 <= j1 < j2 < |cs| && !IsInline(cs[j1].value) ==> Bound(cs[..j1]) < Bound(cs[..j2])
    decreases |cs|
  {
    if |cs| > 0 {
      var prefix := cs[..|cs| - 1];
      PlaceholdersConsecutive(prefix);
      forall j | 0 <= j < |cs| && !IsInline(cs[j].value)
        ensures Bound(cs[..j]) < Bound(cs)
      {
        BoundPrefix(cs, j);
      }
      forall j1, j2 | 0 <= j1 < j2 < |cs| && !IsInline(cs[j1].value)
        ensures Bound(cs[..j1]) < Bound(cs[..j2])
      {
        assert cs[..j2][..j1] == cs[..j1];
        BoundPrefix(cs[..j2], j1);
      }
    }
  }

  /** The value texts of the bound cells, i.e. the placeholders, in column order. */
  function Tokens(cs: seq<Cell>, bp: int -> string, start: int): seq<string>
    decreases |cs|
  {
    if |cs| == 0 then []
    else
      var prefix := Tokens(cs[..|cs| - 1], bp, start);
      if IsInline(cs[|cs| - 1].value) then prefix else prefix + [ValueText(cs, |cs| - 1, bp, start)]
  }

  /** The placeholders are `bp(start)`, `bp(start + 1)`, ..., one per bound cell. */
  lemma {:induction false} TokensConsecutive(cs: seq<Cell>, bp: int -> string, start: int)
    ensures |Tokens(cs, bp, start)| == Bound(cs)
    ensures forall k :: 0 <= k < |Tokens(cs, bp, start)| ==> Tokens(cs, bp, start)[k] == bp(start + k)
    decreases |cs|
  {
    if |cs| > 0 {
      var prefix := cs[..|cs| - 1];
      TokensConsecutive(prefix, bp, start);
    }
  }

  /** With the default placeholder function the placeholders are `params(count, start - 1)`. */
  lemma DefaultTokensAreParams(cs: seq<Cell>, start: int)
    ensures Tokens(cs, Param, start) == Params(Bound(cs), Some(start - 1))
  {
    TokensConsecutive(cs, Param, start);
  }

  /** The argument for bound cell `j` sits at that cell's placeholder number. */
  lemma {:induction false} ArgsAlign(cs: seq<Cell>)
    requires NonNull(cs)
    ensures forall j :: 0 <= j < |cs| && !IsInline(cs[j].value) ==>
      Bound(cs[..j]) < |Args(cs)| && Args(cs)[Bound(cs[..j])] == BoundArg(cs[j].attr, cs[j].value)
    decreases |cs|
  {
    if |cs| > 0 {
      var prefix := cs[..|cs| - 1];
      ArgsAlign(prefix);
      forall j | 0 <= j < |cs| && !IsInline(cs[j].value)
        ensures Bound(cs[..j]) < |Args(cs)| && Args(cs)[Bound(cs[..j])] == BoundArg(cs[j].attr, cs[j].value)
      {
        BoundPrefix(cs, j);
        if j < |prefix| {
          assert prefix[..j] == cs[..j];
          assert prefix[j] == cs[j];
        } else {
          assert cs[..j] == prefix;
        }
      }
    }
  }

  /** The statement every record gets in a batch when no column qualifies. */
  function EmptyStatement(table: string): Statement {
    Statement("replace into " + table + "()values()", [])
  }

  /** The statement the loop of `buildToSaveBatch` builds for one record. */
  function BatchStatement(rec: Record, table: string, attrs: Attributes, bp: int -> string): (r: Statement)
    ensures r == match BuildToSave(rec, table, attrs, Some(bp), Some(1))
                 case Some(st) => st
                 case None => EmptyStatement(table)
  {
    BatchAllIsSaveAll(rec, attrs, bp);
    SaveAllLayout(rec, attrs, bp, 1);
    var p := BatchAll(rec, attrs, bp);
    Statement(Render(table, p.cols, p.values), p.args)
  }

  /** `buildToSaveBatch(objs, table, attrs, buildParam)`; `None` is the source's `null`. */
  function BuildToSaveBatch(objs: seq<Record>, table: string, attrs: Attributes,
                            bp: Option<int -> string>): (r: Option<seq<Statement>>)
    ensures r.None? <==> forall j :: 0 <= j < |attrs| ==> !attrs[j].1.key
    ensures r.Some? ==> |r.value| == |objs|
    ensures r.Some? ==>
      forall j :: 0 <= j < |objs| ==>
        r.value[j] == match BuildToSave(objs[j], table, attrs, bp, Some(1))
                      case Some(st) => st
                      case None => EmptyStatement(table)
  {
    var meta := MetadataOf(attrs);
    MetadataLists(attrs);
    FilterNonEmpty(attrs, IsKeyAttr);
    if |meta.keys| == 0 then None
    else
      var b := Placeholder(bp);
      Some(seq(|objs|, j requires 0 <= j < |objs| => BatchStatement(objs[j], table, attrs, b)))
  }

  lemma {:induction false} BatchAllIsSaveAll(rec: Record, attrs: Attributes, bp: int -> string)
    ensures BatchAll(rec, attrs, bp) == SaveAll(rec, attrs, bp, 1)
    decreases |attrs|
  {
    if |attrs| > 0 {
      BatchAllIsSaveAll(rec, attrs[..|attrs| - 1], bp);
    }
  }
}

=== FILE: options.dfy ===
/** The optional-value datatype used for JavaScript's `undefined`/`null` results. */
module Options {

  datatype Option<+T> = None | Some(value: T) {

    /** The wrapped value, or `default` when there is none. */
    function GetOr(default: T): T {
      match this
      case Some(v) => v
      case None => default
    }
  }
}

=== FILE: scenarios.dfy ===
/**
 * Worked examples of the statement builder on the `users` entity
 * (`userId`/`id`, `name`, `email`), proved of the model.
 */
module Scenarios {
  import opened Options
  import opened Schema
  import opened Build
  import opened Sqlite

  function Plain(): Attribute {
    Attribute(None, false, None, Null, None, None, false, false, false)
  }

  function UsersAttributes(): Attributes {
    [("id", Plain().(key := true)), ("name", Plain()), ("email", Plain())]
  }

  function FullUser(): Record {
    map["id" := Num(1), "name" := Str("a"), "email" := Str("a@x.com")]
  }

  lemma FullUserCells()
    ensures Cells(FullUser(), UsersAttributes()) ==
      [Cell("id", Num(1), Plain().(key := true)), Cell("name", Str("a"), Plain()), Cell("email", Str("a@x.com"), Plain())]
  {
    var attrs := UsersAttributes();
    assert attrs[..2] == [attrs[0], attrs[1]];
    assert attrs[..2][..1] == [attrs[0]];
  }

  lemma FullUserTexts(cs: seq<Cell>)
    requires cs == [Cell("id", Num(1), Plain().(key := true)), Cell("name", Str("a"), Plain()), Cell("email", Str("a@x.com"), Plain())]
    ensures Texts(cs, Param, 1) == ["1", "$1", "$2"]
    ensures Columns(cs) == ["id", "name", "email"]
    ensures Args(cs) == ["a", "a@x.com"]
  {
    assert cs[..1] == [cs[0]] && cs[..2] == [cs[0], cs[1]];
    assert [cs[0], cs[1]][..1] == [cs[0]];
    assert Bound(cs[..1]) == 0;
    assert Bound(cs[..2]) == 1;
    assert Text.IntToString(1) == "1";
    assert Text.IntToString(2) == "2";
    assert Param(1) == "$1" && Param(2) == "$2";
    assert ToString(Num(1)) == "1";
  }

  lemma JoinThree(a: string, b: string, c: string)
    ensures Text.Join([a, b, c], ',') == a + "," + b + "," + c
  {
    assert [a, b, c][1..] == [b, c];
    assert [b, c][1..] == [c];
    assert Text.Join([c], ',') == c;
    assert Text.Join([b, c], ',') == b + "," + c;
  }

  lemma FullUserRender()
    ensures Render("users", ["id", "name", "email"], ["1", "$1", "$2"])
         == "replace into users(id,name,email)values(1,$1,$2)"
  {
    JoinThree("id", "name", "email");
    JoinThree("1", "$1", "$2");
  }

  /** The numeric id is inlined; name and email are bound as `$1`, `$2`. */
  lemma FullRecord(rec: Record, attrs: Attributes)
    requires rec == FullUser() && attrs == UsersAttributes()
    ensures BuildToSave(rec, "users", attrs, None, None)
         == Some(Statement("replace into users(id,name,email)values(1,$1,$2)", ["a", "a@x.com"]))
  {
    FullUserCells();
    FullUserTexts(Cells(rec, attrs));
    BuildToSaveLayout(rec, "users", attrs, None, None);
    assert BuildToSave(rec, "users", attrs, None, None)
        == Some(Statement(Render("users", ["id", "name", "email"], ["1", "$1", "$2"]), ["a", "a@x.com"]));
    FullUserRender();
  }

  lemma NameOnlyCells()
    ensures Cells(map["name" := Str("a")], UsersAttributes()) == [Cell("name", Str("a"), Plain())]
  {
    var rec := map["name" := Str("a")];
    var attrs := UsersAttributes();
    assert attrs[..2] == [attrs[0], attrs[1]];
    assert attrs[..2][..1] == [attrs[0]];
    assert Cells(rec, attrs[..2][..1]) == [];
    assert Cells(rec, attrs[..2]) == [Cell("name", Str("a"), Plain())];
  }

  lemma NameOnlyLayout(cs: seq<Cell>)
    requires cs == [Cell("name", Str("a"), Plain())]
    ensures Columns(cs) == ["name"] && Texts(cs, Param, 1) == ["$1"] && Args(cs) == ["a"]
  {
    assert cs[..0] == [];
    assert Text.IntToString(1) == "1";
    assert Param(1) == "$1";
    assert ValueText(cs, 0, Param, 1) == Param(1);
  }

  lemma NameOnlyRender()
    ensures Render("users", ["name"], ["$1"]) == "replace into users(name)values($1)"
  {
  }

  /** Absent columns without defaults are left out of the statement. */
  lemma PartialRecord(rec: Record, attrs: Attributes)
    requires rec == map["name" := Str("a")] && attrs == UsersAttributes()
    ensures BuildToSave(rec, "users", attrs, None, None)
         == Some(Statement("replace into users(name)values($1)", ["a"]))
  {
    NameOnlyCells();
    NameOnlyLayout(Cells(rec, attrs));
    BuildToSaveLayout(rec, "users", attrs, None, None);
    assert BuildToSave(rec, "users", attrs, None, None) == Some(Statement(Render("users", ["name"], ["$1"]), ["a"]));
    NameOnlyRender();
  }

  /** A record with nothing to write gives no statement on its own, and an empty one in a batch. */
  lemma EmptyRecord(rec: Record, attrs: Attributes)
    requires rec == map[] && attrs == UsersAttributes()
    ensures BuildToSave(rec, "users", attrs, None, None) == None
    ensures BuildToSaveBatch([rec], "users", attrs, None)
         == Some([Statement("replace into users()values()", [])])
  {
    assert forall j :: 0 <= j < |attrs| ==> !Qualifies(rec, attrs[j]);
    assert BuildToSave(rec, "users", attrs, None, Some(1)) == None;
    assert attrs[0].1.key;
    var r := BuildToSaveBatch([rec], "users", attrs, None);
    assert r.value[0] == EmptyStatement("users");
    assert r.value == [r.value[0]];
    EmptyUsersStatement();
  }

  lemma EmptyUsersStatement()
    ensures EmptyStatement("users") == Statement("replace into users()values()", [])
  {
  }

  /** Without a key attribute a batch cannot be built. */
  lemma BatchWithoutKey()
    ensures BuildToSaveBatch([map["name" := Str("a")]], "users", [("name", Plain())], None) == None
  {
  }

  /** `userId` lower-cases to `userid`, so result rows are renamed back. */
  lemma UserIdRename()
    ensures MetadataOf([("userId", Plain().(key := true)), ("name", Plain())]).renames
         == Some(map["userid" := "userId"])
  {
    var attrs := [("userId", Plain().(key := true)), ("name", Plain())];
    assert attrs[..1] == [attrs[0]];
    assert attrs[..1][..0] == [];
    assert Text.Lower("userId") == "userid";
    assert Text.Lower("name") == "name";
    assert ScanAll(attrs[..1]).renames == map["userid" := "userId"];
  }

  /** `userid` and `userId` both land on `userId`; the later column's value wins. */
  lemma CollisionLaterWins()
    ensures MapRow([("userid", Num(1)), ("userId", Num(2))], map["userid" := "userId"])
         == [("userId", Num(2))]
  {
    var row := [("userid", Num(1)), ("userId", Num(2))];
    assert row[..1] == [row[0]];
    assert row[..1][..0] == [];
  }

  /** A row read back under its lower-cased column names is renamed to the field names. */
  lemma RowRenamedBack()
    ensures MapArray([[("userid", Str("u1")), ("name", Str("a"))]], Some(map["userid" := "userId"]))
         == [[("userId", Str("u1")), ("name", Str("a"))]]
  {
    var row := [("userid", Str("u1")), ("name", Str("a"))];
    var m := map["userid" := "userId"];
    assert row[..1] == [row[0]];
    assert row[..1][..0] == [];
    assert MapRow(row[..1], m) == [("userId", Str("u1"))];
    assert Rename(m, "name") == "name";
    assert MapRow(row, m) == Put([("userId", Str("u1"))], "name", Str("a"));
    assert MapRow(row, m) == [("userId", Str("u1")), ("name", Str("a"))];
  }
}

=== FILE: schema.dfy ===
/**
 * The shapes the persistence layer works with: attribute metadata, records,
 * statements and rename maps. In the repository these are declared in a
 * `metadata` module that is not part of this model; they are defined here
 * from how the statement builder and the row mapper use them.
 */
module Schema {
  import opened Options

  /**
   * A field value read off a record. `Null` stands for both `null` and
   * `undefined`, which the builder treats alike; `NaN` is the one
   * non-integer number that is modelled.
   */
  datatype Value = Str(s: string) | Num(n: int) | NaN | Bool(b: bool) | Null

  /** A record is read by key; a key missing from the map reads as `undefined`. */
  type Record = map<string, Value>

  /**
   * Per-field metadata. `field` is the storage column (the key name when
   * absent or empty); `trueMarker` / `falseMarker` are the stored forms of
   * the booleans; `defaultValue` is `Null` when no default is configured.
   */
  datatype Attribute = Attribute(
    field: Option<string>,
    key: bool,
    dataType: Option<string>,
    defaultValue: Value,
    trueMarker: Option<string>,
    falseMarker: Option<string>,
    ignored: bool,
    noinsert: bool,
    version: bool)

  /** An attribute together with the key it is declared under. */
  type NamedAttribute = (string, Attribute)

  /** The attribute map, in definition (`Object.keys`) order. */
  type Attributes = seq<NamedAttribute>

  /** One executable unit: query text and its positional arguments. */
  datatype Statement = Statement(query: string, args: seq<string>)

  /** Column-name to field-name rename map. */
  type StringMap = map<string, string>

  /** JavaScript truthiness of an optional string: present and non-empty. */
  predicate Truthy(o: Option<string>) {
    o.Some? && o.value != ""
  }
}

=== FILE: seqs.dfy ===
/** Order-preserving selection from a sequence. */
module Seqs {

  /** The elements of `s` satisfying `p`, in their original order. */
  function Filter<T(!new)>(s: seq<T>, p: T -> bool): (r: seq<T>)
    ensures |r| <= |s|
    ensures forall x :: x in r <==> x in s && p(x)
    decreases |s|
  {
    if |s| == 0 then []
    else
      var prefix := Filter(s[..|s| - 1], p);
      assert forall x :: x in s <==> x in s[..|s| - 1] || x == s[|s| - 1];
      if p(s[|s| - 1]) then prefix + [s[|s| - 1]] else prefix
  }
}

=== FILE: sqlite.dfy ===
/**
 * The result mapper of the driver layer: `handleResults` and `mapArray`
 * rename the keys of result rows through a column-to-field map
 * (src/services/sqlite/sqlite.ts). The driver wrappers are not modelled.
 */
module Sqlite {
  import opened Options
  import opened Schema

  /** A result row: its keys in `Object.keys` order, each with its value. */
  type Row = seq<(string, Value)>

  /** Object keys are unique. */
  predicate DistinctKeys(row: Row) {
    forall i, j :: 0 <= i < j < |row| ==> row[i].0 != row[j].0
  }

  function Keys(row: Row): set<string> {
    set e | e in row :: e.0
  }

  /** `row[k]`, `None` for `undefined`. */
  function Get(row: Row, k: string): Option<Value>
    decreases |row|
  {
    if |row| == 0 then None
    else if row[0].0 == k then Some(row[0].1)
    else Get(row[1..], k)
  }

  /**
   * `row[k] = v`: overwrites the value in place when `k` is already a key,
   * otherwise appends the new key last.
   */
  function Put(row: Row, k: string, v: Value): (r: Row)
    ensures Keys(r) == Keys(row) + {k}
    ensures forall e :: e in r ==> e in row || e == (k, v)
    ensures k in Keys(row) ==> |r| == |row|
    ensures k !in Keys(row) ==> r == row + [(k, v)]
    decreases |row|
  {
    if |row| == 0 then [(k, v)]
    else
      KeysCons(row);
      if row[0].0 == k then [(k, v)] + row[1..]
      else
        var rest := Put(row[1..], k, v);
        KeysCons([row[0]] + rest);
        assert ([row[0]] + rest)[1..] == rest;
        [row[0]] + rest
  }

  lemma KeysIndex(row: Row, k: string)
    ensures k in Keys(row) <==> exists i :: 0 <= i < |row| && row[i].0 == k
  {
    if k in Keys(row) {
      var e :| e in row && e.0 == k;
      var i :| 0 <= i < |row| && row[i] == e;
    }
  }

  lemma KeysCons(row: Row)
    requires |row| > 0
    ensures Keys(row) == {row[0].0} + Keys(row[1..])
  {
    assert forall e :: e in row <==> e == row[0] || e in row[1..];
  }

  lemma {:induction false} PutGet(row: Row, k: string, v: Value, k': string)
    ensures Get(Put(row, k, v), k') == if k' == k then Some(v) else Get(row, k')
    decreases |row|
  {
    if |row| > 0 && row[0].0 != k {
      PutGet(row[1..], k, v, k');
      assert ([row[0]] + Put(row[1..], k, v))[1..] == Put(row[1..], k, v);
    }
  }

  lemma {:induction false} PutDistinct(row: Row, k: string, v: Value)
    requires DistinctKeys(row)
    ensures DistinctKeys(Put(row, k, v))
    decreases |row|
  {
    if |row| > 0 {
      KeysCons(row);
      if row[0].0 != k {
        PutDistinct(row[1..], k, v);
        var rest := Put(row[1..], k, v);
        var r := [row[0]] + rest;
        forall i, j | 0 <= i < j < |r| ensures r[i].0 != r[j].0 {
          if i == 0 {
            assert r[j] in rest;
            assert r[j].0 in Keys(rest);
          }
        }
      } else {
        var r := [(k, v)] + row[1..];
        forall i, j | 0 <= i < j < |r| ensures r[i].0 != r[j].0 {
          assert r[j] == row[j];
          if i > 0 {
            assert r[i] == row[i];
          }
        }
      }
    }
  }

  /** The key a row key is stored under: `m[key]` when that is a non-empty string, else the key itself. */
  function Rename(m: StringMap, key: string): (r: string)
    ensures r == key || (key in m && r == m[key])
    ensures key in m && m[key] != "" ==> r == m[key]
    ensures r == "" ==> key == ""
  {
    if key in m && m[key] != "" then m[key] else key
  }

  /**
   * The fresh row `mapArray` builds for one input row: keys stay distinct
   * and there are never more of them than in the input row.
   */
  function MapRow(row: Row, m: StringMap): (r: Row)
    ensures DistinctKeys(r)
    ensures |r| <= |row|
    decreases |row|
  {
    if |row| == 0 then []
    else
      var prefix := MapRow(row[..|row| - 1], m);
      var last := row[|row| - 1];
      PutDistinct(prefix, Rename(m, last.0), last.1);
      Put(prefix, Rename(m, last.0), last.1)
  }

  /** The output keys are exactly the renamed input keys. */
  lemma {:induction false} MapRowKeys(row: Row, m: StringMap)
    ensures Keys(MapRow(row, m)) == set e | e in row :: Rename(m, e.0)
    decreases |row|
  {
    if |row| > 0 {
      var prefix := row[..|row| - 1];
      MapRowKeys(prefix, m);
      assert forall e :: e in row <==> e in prefix || e == row[|row| - 1];
    }
  }

  /** The input entries of `row`, each under its renamed key. */
  function RenamedEntries(row: Row, m: StringMap): set<(string, Value)> {
    set e | e in row :: (Rename(m, e.0), e.1)
  }

  /** Values are carried over unchanged: each output entry is an input entry under its renamed key. */
  lemma {:induction false} MapRowValues(row: Row, m: StringMap)
    ensures forall e :: e in MapRow(row, m) ==> e in RenamedEntries(row, m)
    decreases |row|
  {
    if |row| > 0 {
      var prefix := row[..|row| - 1];
      MapRowValues(prefix, m);
      assert forall e :: e in prefix ==> e in row;
    }
  }

  /** The value of the last entry of `row` whose key renames to `k`. */
  function LastRenamedTo(row: Row, m: StringMap, k: string): Option<Value>
    decreases |row|
  {
    if |row| == 0 then None
    else if Rename(m, row[|row| - 1].0) == k then Some(row[|row| - 1].1)
    else LastRenamedTo(row[..|row| - 1], m, k)
  }

  /** When renamed keys collide, the later entry's value wins. */
  lemma {:induction false} MapRowGet(row: Row, m: StringMap, k: string)
    ensures Get(MapRow(row, m), k) == LastRenamedTo(row, m, k)
    decreases |row|
  {
    if |row| > 0 {
      var last := row[|row| - 1];
      MapRowGet(row[..|row| - 1], m, k);
      PutGet(MapRow(row[..|row| - 1], m), Rename(m, last.0), last.1, k);
    }
  }

  /** No two entries of `row` are renamed to the same key. */
  predicate RenameInjective(row: Row, m: StringMap) {
    forall i, j :: 0 <= i < j < |row| ==> Rename(m, row[i].0) != Rename(m, row[j].0)
  }

  /** Each entry renamed in place, as `MapRow` yields it when no renamed keys collide. */
  function RenameEach(row: Row, m: StringMap): (r: Row)
    ensures |r| == |row|
  {
    seq(|row|, j requires 0 <= j < |row| => (Rename(m, row[j].0), row[j].1))
  }

  /** Without collisions the output row has the input's length and order, entry by entry renamed. */
  lemma {:induction false} MapRowNoCollision(row: Row, m: StringMap)
    requires RenameInjective(row, m)
    ensures MapRow(row, m) == RenameEach(row, m)
    decreases |row|
  {
    if |row| > 0 {
      var prefix := row[..|row| - 1];
      var last := row[|row| - 1];
      assert RenameInjective(prefix, m);
      MapRowNoCollision(prefix, m);
      var k := Rename(m, last.0);
      var mp := MapRow(prefix, m);
      assert k !in Keys(mp) by {
        forall i | 0 <= i < |mp| ensures mp[i].0 != k {
          assert mp[i].0 == Rename(m, row[i].0);
        }
        KeysIndex(mp, k);
      }
      MapRowFresh(row, m);
      RenameEachSnoc(row, m);
    }
  }

  lemma MapRowFresh(row: Row, m: StringMap)
    requires |row| > 0
    requires Rename(m, row[|row| - 1].0) !in Keys(MapRow(row[..|row| - 1], m))
    ensures MapRow(row, m) == MapRow(row[..|row| - 1], m) + [(Rename(m, row[|row| - 1].0), row[|row| - 1].1)]
  {
  }

  lemma RenameEachSnoc(row: Row, m: StringMap)
    requires |row| > 0
    ensures RenameEach(row, m) == RenameEach(row[..|row| - 1], m) + [(Rename(m, row[|row| - 1].0), row[|row| - 1].1)]
  {
  }

  /** `inv` maps every (non-empty) key of `row`, renamed by `m`, back to that key. */
  predicate InvertsOn(m: StringMap, inv: StringMap, row: Row) {
    forall i :: 0 <= i < |row| ==>
      row[i].0 != "" && row[i].0 in m && m[row[i].0] != ""
      && m[row[i].0] in inv && inv[m[row[i].0]] == row[i].0
  }

  /** Distinct keys that `inv` inverts under `m` are renamed to distinct keys. */
  lemma InvertsOnInjective(row: Row, m: StringMap, inv: StringMap)
    requires DistinctKeys(row)
    requires InvertsOn(m, inv, row)
    ensures RenameInjective(row, m)
  {
    forall i, j | 0 <= i < j < |row|
      ensures Rename(m, row[i].0) != Rename(m, row[j].0)
    {
      assert Rename(m, row[i].0) == m[row[i].0];
      assert Rename(m, row[j].0) == m[row[j].0];
    }
  }

  /** Renaming each entry with `m` and then with `inv` gives back the row, without collisions on the way back. */
  lemma RenameEachBack(row: Row, m: StringMap, inv: StringMap)
    requires DistinctKeys(row)
    requires InvertsOn(m, inv, row)
    ensures RenameInjective(RenameEach(row, m), inv)
    ensures RenameEach(RenameEach(row, m), inv) == row
  {
    var mid := RenameEach(row, m);
    forall j | 0 <= j < |mid|
      ensures Rename(inv, mid[j].0) == row[j].0
    {
      assert mid[j].0 == m[row[j].0];
    }
  }

  /** Renaming with `m` and then with its inverse restores the row. */
  lemma {:induction false} MapRowRoundTrip(row: Row, m: StringMap, inv: StringMap)
    requires DistinctKeys(row)
    requires InvertsOn(m, inv, row)
    ensures MapRow(MapRow(row, m), inv) == row
  {
    InvertsOnInjective(row, m, inv);
    MapRowNoCollision(row, m);
    RenameEachBack(row, m, inv);
    MapRowNoCollision(RenameEach(row, m), inv);
  }

  ghost predicate Injective(m: StringMap) {
    forall a, b :: a in m && b in m && a != b ==> m[a] != m[b]
  }

  /** The inverse of an injective map. */
  ghost function Inverse(m: StringMap): (inv: StringMap)
    requires Injective(m)
    ensures forall k :: k in m ==> m[k] in inv && inv[m[k]] == k
  {
    var inv := map v | v in m.Values :: var k :| k in m && m[k] == v; k;
    assert forall k :: k in m ==> m[k] in m.Values;
    inv
  }

  /**
   * If `m` is injective and renames every key of a row (keys and names
   * non-empty), mapping with `m` and then with its inverse restores the row.
   */
  lemma {:induction false} InjectiveRoundTrip(row: Row, m: StringMap)
    requires Injective(m)
    requires DistinctKeys(row)
    requires forall i :: 0 <= i < |row| ==> row[i].0 != "" && row[i].0 in m && m[row[i].0] != ""
    ensures MapRow(MapRow(row, m), Inverse(m)) == row
  {
    MapRowRoundTrip(row, m, Inverse(m));
  }

  /** `mapArray(results, m)`. */
  function MapArray(results: seq<Row>, m: Option<StringMap>): (r: seq<Row>)
    ensures |r| == |results|
    ensures m.None? || |m.value| == 0 ==> r == results
    ensures m.Some? && |m.value| > 0 ==> forall j :: 0 <= j < |r| ==> r[j] == MapRow(results[j], m.value)
  {
    if m.None? || |m.value| == 0 then results
    else seq(|results|, j requires 0 <= j < |results| => MapRow(results[j], m.value))
  }

  /** Rows whose keys `inv` inverts under `m` force a non-empty `inv` unless they are empty. */
  lemma InvertsOnEmptyMaps(row: Row, m: StringMap, inv: StringMap)
    requires InvertsOn(m, inv, row)
    ensures |m| == 0 || |inv| == 0 ==> row == []
  {
    if |row| > 0 {
      assert row[0].0 in m;
      assert m[row[0].0] in inv;
    }
  }

  /** Mapping every row with `m` and then with `inv` restores the rows. */
  lemma {:induction false} MapArrayRoundTrip(results: seq<Row>, m: StringMap, inv: StringMap)
    requires forall j :: 0 <= j < |results| ==> DistinctKeys(results[j]) && InvertsOn(m, inv, results[j])
    ensures MapArray(MapArray(results, Some(m)), Some(inv)) == results
  {
    var mid := MapArray(results, Some(m));
    var out := MapArray(mid, Some(inv));
    forall j | 0 <= j < |results|
      ensures out[j] == results[j]
    {
      var row := results[j];
      InvertsOnEmptyMaps(row, m, inv);
      MapRowRoundTrip(row, m, inv);
      if |m| > 0 && |inv| > 0 {
        assert out[j] == MapRow(MapRow(row, m), inv);
      }
    }
  }

  /** `handleResults(r, m)`: the rows unchanged without a map, else `mapArray`. */
  function HandleResults(r: seq<Row>, m: Option<StringMap>): (res: seq<Row>)
    ensures |res| == |r|
    ensures m.None? ==> res == r
    ensures m.Some? ==> res == MapArray(r, m)
  {
    if m.Some? then MapArray(r, m) else r
  }

  /**
   * No value is coerced: every entry of an output row is an entry of the
   * input row at the same position, under its renamed key (an absent map
   * renames nothing).
   */
  lemma {:induction false} HandleResultsKeepsValues(r: seq<Row>, m: Option<StringMap>, j: int)
    requires 0 <= j < |r|
    ensures forall e :: e in HandleResults(r, m)[j] ==> e in RenamedEntries(r[j], m.GetOr(map[]))
  {
    var out := HandleResults(r, m)[j];
    if m.Some? && |m.value| > 0 {
      assert out == MapRow(r[j], m.value);
      MapRowValues(r[j], m.value);
    } else {
      assert out == r[j];
      forall e | e in out
        ensures e in RenamedEntries(r[j], m.GetOr(map[]))
      {
        assert Rename(map[], e.0) == e.0;
      }
    }
  }
}

=== FILE: text.dfy ===
/**
 * Text helpers for the statement builder: decimal rendering of integers
 * (JavaScript's `'' + n` on an integer-valued number) with its parser,
 * ASCII lower-casing (`toLowerCase`), and `Array.prototype.join` with a
 * one-character separator together with the matching split.
 */
module Text {
  import opened Options

  predicate IsDigit(c: char) {
    '0' <= c <= '9'
  }

  predicate IsUpper(c: char) {
    'A' <= c <= 'Z'
  }

  function DigitChar(d: int): (c: char)
    requires 0 <= d < 10
    ensures IsDigit(c) && c as int - '0' as int == d
  {
    ('0' as int + d) as char
  }

  /** Decimal digits of `n`, most significant first, without leading zeros. */
  function NatToString(n: nat): (s: string)
    ensures |s| > 0
    ensures forall i :: 0 <= i < |s| ==> IsDigit(s[i])
    ensures |s| > 1 ==> s[0] != '0'
    decreases n
  {
    if n < 10 then [DigitChar(n)] else NatToString(n / 10) + [DigitChar(n % 10)]
  }

  function DigitValue(c: char): nat
    requires IsDigit(c)
  {
    c as int - '0' as int
  }

  /** The value of a string of decimal digits. */
  function DigitsValue(s: string): nat
    requires forall i :: 0 <= i < |s| ==> IsDigit(s[i])
    decreases |s|
  {
    if |s| == 0 then 0
    else DigitsValue(s[..|s| - 1]) * 10 + DigitValue(s[|s| - 1])
  }

  predicate AllDigits(s: string) {
    forall i :: 0 <= i < |s| ==> IsDigit(s[i])
  }

  function ParseNat(s: string): Option<nat> {
    if |s| > 0 && AllDigits(s) then Some(DigitsValue(s)) else None
  }

  /** Optional leading minus sign followed by decimal digits. */
  function ParseInt(s: string): Option<int> {
    if |s| > 0 && s[0] == '-' then
      match ParseNat(s[1..])
      case Some(v) => Some(-(v as int))
      case None => None
    else
      match ParseNat(s)
      case Some(v) => Some(v)
      case None => None
  }

  /**
   * Exact decimal text of an integer: optional `-`, then digits. This is what
   * JavaScript prints for integer-valued numbers of magnitude at most 2^53.
   */
  function IntToString(n: int): (s: string)
    ensures |s| > 0 && (IsDigit(s[0]) || s[0] == '-')
    ensures s[0] == '-' <==> n < 0
    ensures n < 0 ==> |s| > 1 && s[1] != '0'
    ensures n >= 0 && |s| > 1 ==> s[0] != '0'
  {
    if n < 0 then "-" + NatToString(-n) else NatToString(n)
  }

  lemma {:induction false} NatToStringRoundTrip(n: nat)
    ensures ParseNat(NatToString(n)) == Some(n)
    decreases n
  {
    var s := NatToString(n);
    if n < 10 {
      assert s[..|s| - 1] == [];
      assert DigitsValue(s) == DigitValue(s[0]);
    } else {
      NatToStringRoundTrip(n / 10);
      assert s[..|s| - 1] == NatToString(n / 10);
    }
  }

  /** Rendering an integer and parsing it back yields the same integer. */
  lemma IntToStringRoundTrip(n: int)
    ensures ParseInt(IntToString(n)) == Some(n)
  {
    var s := IntToString(n);
    if n < 0 {
      assert s[1..] == NatToString(-n);
      NatToStringRoundTrip(-n);
    } else {
      NatToStringRoundTrip(n);
    }
  }

  function LowerChar(c: char): char {
    if IsUpper(c) then (c as int + 32) as char else c
  }

  /** `toLowerCase` restricted to the ASCII letters A-Z. */
  function Lower(s: string): (r: string)
    ensures |r| == |s|
    ensures forall i :: 0 <= i < |r| ==> !IsUpper(r[i])
    ensures forall i :: 0 <= i < |s| && !IsUpper(s[i]) ==> r[i] == s[i]
    ensures forall i :: 0 <= i < |s| && IsUpper(s[i]) ==>
      'a' <= r[i] <= 'z' && r[i] as int - 'a' as int == s[i] as int - 'A' as int
  {
    seq(|s|, i requires 0 <= i < |s| => LowerChar(s[i]))
  }

  /** Lower-casing is idempotent, and leaves exactly the strings without capitals unchanged. */
  lemma LowerFixpoints(s: string)
    ensures Lower(Lower(s)) == Lower(s)
    ensures Lower(s) == s <==> forall i :: 0 <= i < |s| ==> !IsUpper(s[i])
  {
    if Lower(s) == s {
      forall i | 0 <= i < |s| ensures !IsUpper(s[i]) {
        assert Lower(s)[i] == s[i];
      }
    }
  }

  /** `xs.join(sep)`: the empty list joins to the empty string. */
  function Join(xs: seq<string>, sep: char): string
    decreases |xs|
  {
    if |xs| == 0 then ""
    else if |xs| == 1 then xs[0]
    else xs[0] + [sep] + Join(xs[1..], sep)
  }

  /** `s.split(sep)`: always at least one piece; the empty string splits to `[""]`. */
  function Split(s: string, sep: char): (r: seq<string>)
    ensures |r| > 0
    decreases |s|
  {
    if |s| == 0 then [""]
    else
      var rest := Split(s[1..], sep);
      if s[0] == sep then [""] + rest
      else [[s[0]] + rest[0]] + rest[1..]
  }

  lemma {:induction false} SplitNoSeparator(s: string, sep: char)
    requires sep !in s
    ensures Split(s, sep) == [s]
    decreases |s|
  {
    if |s| > 0 {
      SplitNoSeparator(s[1..], sep);
      assert [s[0]] + s[1..] == s;
    }
  }

  lemma {:induction false} SplitAtFirstSeparator(a: string, sep: char, t: string)
    requires sep !in a
    ensures Split(a + [sep] + t, sep) == [a] + Split(t, sep)
    decreases |a|
  {
    var s := a + [sep] + t;
    if |a| == 0 {
      assert s[1..] == t;
    } else {
      assert s[1..] == a[1..] + [sep] + t;
      SplitAtFirstSeparator(a[1..], sep, t);
      assert [a[0]] + a[1..] == a;
    }
  }

  /** Joining pieces that do not contain the separator can be undone by splitting. */
  lemma {:induction false} JoinSplitRoundTrip(xs: seq<string>, sep: char)
    requires |xs| > 0
    requires forall i :: 0 <= i < |xs| ==> sep !in xs[i]
    ensures Split(Join(xs, sep), sep) == xs
    decreases |xs|
  {
    if |xs| == 1 {
      SplitNoSeparator(xs[0], sep);
    } else {
      JoinSplitRoundTrip(xs[1..], sep);
      SplitAtFirstSeparator(xs[0], sep, Join(xs[1..], sep));
      assert [xs[0]] + xs[1..] == xs;
    }
  }
}
